=== FILE: README.md ===
# JSS CryptoManager native core, modelled in Dafny

This project models the decision logic of the native half of JSS's
`CryptoManager` (`CryptoManager.c`), the JNI layer that brings up NSS, the
Mozilla security library. The model covers:

- the one-shot initialization state machine (`initializeAllNative2`);
- the OCSP configurator (`ConfigureOCSP`), which sets up revocation checking;
- registration of the default password callback (`JSS_setPasswordCallback`);
- the PKCS #11 password hook (`getPWFromCallback`);
- the FIPS toggle (`enableFIPS`);
- the enumeration of loaded PKCS #11 modules (`putModulesInVector`).

The process-wide state is one immutable record, `LibraryState.Library`. It
holds the `initialized` flag, the OCSP checking and default-responder state,
the FIPS mode, the registered callback and the JNI global references held on
it, and whether the password hook, the domestic policy and PKIX validation
have been set. Every entry point except module enumeration is a pure
transition function over this record. Module enumeration
(`ModuleList.PutModulesInVector`) works on the module list's reference counts
instead.

Calls into NSS, NSPR and the JVM are not modelled. Their outcomes are oracle
parameters instead:

- the status of each native call;
- which certificate nicknames resolve in the certificate database or on a
  token;
- what the Java password callback returns;
- whether each module can be wrapped.

`Ocsp.Configure`, `Init.Initialize` and `Password.GetPassword` also return the
native calls they made, in order, and `ModuleList.PutModulesInVector` returns
its lock events. The other transitions (`Fips.EnableFips`,
`Password.SetPasswordCallback` and the runtime entry points built on them)
return only the new state and the error. The traces let the contracts say "nothing native happened", "this lookup came only after that
one" and "the password object was cleared right after its bytes were copied".

Files:

- `base.dfy`: `Option`, nullable Java strings, native status.
- `ocsp.dfy`: `ConfigureOCSP`.
- `password.dfy`: callback registration and the password hook.
- `fips.dfy`: `enableFIPS`.
- `modules.dfy`: `putModulesInVector`.
- `library.dfy`: the state record.
- `init.dfy`: initialization.
- `crypto_manager.dfy`: runtime entry points and properties of whole runs of
  operations.

Behaviours of the code that the model follows and a reader might not expect:

- A failed OCSP reconfiguration does not leave checking in its prior state.
  The code switches checking off first and does not switch it back on, so
  checking is always off after a failure.
- There is no separate "Java-only ready" state. The Java-only shortcut sets
  the same single `initialized` flag, so any later initialization is refused.
- A responder URL without a nickname fails only after checking has been
  switched off. No certificate lookup happens on that path.
- `enableFIPS` reports a switch whenever the requested mode differs from the
  current one, even when the toggle itself fails and an exception is raised.
- When wrapping a module fails, the modules already wrapped stay in the vector.
  Only the reference that was taken but not wrapped is released.

## Model

| member | source | states |
|---|---|---|
| Ocsp.Configure | src/main/java/org/mozilla/jss/CryptoManager.c:106-190 | Checking is switched off before anything else. The call succeeds iff there is no URL, or the URL has a nickname that resolves and the responder setter succeeds. On failure checking stays off and the default-responder state is untouched. A nickname that resolves nowhere fails with CertNotFound, after the lookups and before the setter. On success checking equals the request. With a URL, that responder is installed and enabled; without one, the default responder is disabled. A URL without a nickname fails before any lookup. |
| Ocsp.Lookups | src/main/java/org/mozilla/jss/CryptoManager.c:143-151 | The certificate database is searched first. The tokens are searched only when the database has no certificate with that nickname. |
| Ocsp.TokenLookupIsFallback | src/main/java/org/mozilla/jss/CryptoManager.c:133-156 | A configuration looks on the tokens for nickname n iff it was given a URL and nickname n, and n is not in the certificate database. |
| Ocsp.ReapplyIsIdempotent | src/main/java/org/mozilla/jss/CryptoManager.c:126-182 | Applying an accepted configuration a second time, with the same native outcomes, leaves the state unchanged. |
| Ocsp.DisabledConfigurationResets | src/main/java/org/mozilla/jss/CryptoManager.c:126-182 | The disabled configuration without a URL always succeeds. From any prior state it leaves checking and the default responder both off. |
| Password.SetPasswordCallback | src/main/java/org/mozilla/jss/CryptoManager.c:528-546 | The previous default is always released. A null argument leaves no default registered. A non-null one is registered iff its global reference can be created, and otherwise out-of-memory is raised. Before and after, at most one global reference is held, and only on the registered default. |
| Password.CString | src/main/java/org/mozilla/jss/CryptoManager.c:716-719 | The duplicated password is the prefix of the byte copy up to its first zero byte, and contains no zero byte. |
| Password.CStringOfTerminated | src/main/java/org/mozilla/jss/CryptoManager.c:716-719 | A zero-terminated byte copy of a password without zero bytes duplicates to exactly that password. |
| Password.GetPassword | src/main/java/org/mozilla/jss/CryptoManager.c:583-752 | With no slot, or with neither an override nor a default, the result is NULL and nothing is invoked. Otherwise, once the thread is attached and the callback's method found, the override (else the default) is invoked, once and first, through the "again" method iff retry, with the token's name, whatever it then replies. No other callback is ever invoked. A password comes back iff every host step succeeds, and it is the copied bytes. A null or thrown reply yields NULL. Once a reply is in hand and the password methods are found, the bytes are copied and the password object is cleared right after, whether or not the copy threw. When the copy was made, the copy buffer is wiped last, even when duplicating it fails. |
| Password.LaterRegistrationWins | src/main/java/org/mozilla/jss/CryptoManager.c:533-614 | Registering A and then B (possibly the same callback) releases A and holds only B. A login without an override then invokes B, through the method retry selects, once the thread is attached and the method found, and never any other callback. |
| Password.GetPasswordAsWritten | src/main/java/org/mozilla/jss/CryptoManager.c:605-750 | The hook as written reaches the cleanup with an unset `JNIEnv` exactly when a slot and a callback exist and attaching the thread fails. |
| Password.AsWrittenDereferencesUnsetEnv | src/main/java/org/mozilla/jss/CryptoManager.c:617-620 | A concrete login shows the hook as written reaching the unset `JNIEnv`: a default callback is registered and attaching the thread fails. |
| Password.CorrectedHookCollapsesAttachFailure | src/main/java/org/mozilla/jss/CryptoManager.c:616-620 | When attaching succeeds, the corrected hook agrees with the code as written. When attaching fails, it returns NULL and invokes nothing. |
| Fips.EnableFips | src/main/java/org/mozilla/jss/CryptoManager.c:899-923 | A switch is reported iff the requested mode differs from the current one. Unless the toggle failed, the library ends in the requested mode. An error is raised iff a switch was attempted and the deletion failed, and then the mode is unchanged. |
| Fips.RepeatedRequestIsNoOp | src/main/java/org/mozilla/jss/CryptoManager.c:907-914 | Repeating a request that succeeded reports no switch and changes nothing. |
| Fips.EnableTwiceFromNonFips | src/main/java/org/mozilla/jss/CryptoManager.c:907-922 | Starting from non-FIPS mode, enabling FIPS twice reports true, then false. FIPS mode is on after both calls. |
| ModuleList.PutModulesInVector | src/main/java/org/mozilla/jss/CryptoManager.c:820-882 | The read lock is taken and released iff the JNI lookups succeed. Modules are wrapped in list order and wrapping stops at the first failure. Each wrapped module has exactly one more reference, and every other module is back at its old count. The total of references grows by the number of wrappers. |
| ModuleList.SumOfIncrementedPrefix | src/main/java/org/mozilla/jss/CryptoManager.c:856-879 | One extra reference on each of the first k modules adds exactly k references in all. |
| Init.InitFlags | src/main/java/org/mozilla/jss/CryptoManager.c:412-442 | Each of the ten symbolic NSS_INIT flags is in the set iff its boolean argument is true. |
| Init.FlagsRoundTrip | src/main/java/org/mozilla/jss/CryptoManager.c:412-442 | The booleans read back from the flag set equal those it was built from. Every flag set is the one built from the booleans it encodes. |
| Init.SelectEntryPoint | src/main/java/org/mozilla/jss/CryptoManager.c:400-455 | NSS_Initialize is used iff a prefix or a module-database name is given, or an extended boolean is set. Otherwise NSS_Init is used iff readOnly, and NSS_InitReadWrite otherwise. The extended call gets the prefixes, the database name and flags that decode to the arguments. |
| Init.ReadOnlyHasOneSource | src/main/java/org/mozilla/jss/CryptoManager.c:413-454 | On both paths the databases open read-only iff `readOnly`. |
| Init.Initialize | src/main/java/org/mozilla/jss/CryptoManager.c:269-518 | A null required string fails with NullPointer before the initialized check, and changes nothing. Next, an initialized library fails with AlreadyInitialized, also changing nothing. Success holds iff every step succeeds, and only success sets the flag. The Java-only path sets the flag and makes no native call. Past those checks, a failure to fetch the strings gives OutOfMemory and a bad string length gives InvalidLength, both with no native call and no change. A failed entry point gives SecurityInit with its code and changes nothing. A failed OID registration gives OidRegistration with its code and leaves NSS up. A refused OCSP configuration gives OcspFailed with ConfigureOCSP's reason, and a failed policy gives Policy, with NSS up and the flag unset. On success the native steps ran in order and the hook and policy are set. The OCSP step is ConfigureOCSP on the initialization's own OCSP arguments, and the OCSP state is its result, so checking is as requested. PKIX is on iff requested or already on, and FIPS mode and the callback registry are untouched. |
| Init.AfterOids | src/main/java/org/mozilla/jss/CryptoManager.c:462-501 | After the OIDs are registered, the password hook is installed and then ConfigureOCSP runs on the initialization's own OCSP arguments, whose resulting state the library takes. A refusal stops there with ConfigureOCSP's reason. Otherwise the domestic policy is set; its failure gives Policy. The step succeeds iff ConfigureOCSP accepts and the policy is set. Only then is the flag set and PKIX selected when asked. |
| Init.NativeSequence | src/main/java/org/mozilla/jss/CryptoManager.c:387-501 | The PKCS #11 strings are configured and the entry point opened first. A failed entry point gives SecurityInit with its code and changes nothing. A failed OID registration gives OidRegistration and leaves only NSS up. Past the OIDs the hook, ConfigureOCSP on the init's own arguments and the policy follow, in that order. It succeeds iff every native step succeeds, and only success sets the flag. |
| Init.ErrorDeterminesEffect | src/main/java/org/mozilla/jss/CryptoManager.c:369-501 | Read from the error alone: OutOfMemory and InvalidLength mean no native call and no change; SecurityInit means nothing changed and the entry point failed with that code; OidRegistration, OcspFailed and Policy mean NSS is up but the flag is unset. |
| Init.InitInstallsResponder | src/main/java/org/mozilla/jss/CryptoManager.c:477-484 | A successful initialization given a responder URL has a nickname, and leaves that responder installed and the default responder enabled. |
| Init.SecondInitializeIsRefused | src/main/java/org/mozilla/jss/CryptoManager.c:332-336 | After a successful initialization, any second call with non-null arguments fails with AlreadyInitialized and changes nothing. |
| LibraryState.Fresh | src/main/java/org/mozilla/jss/CryptoManager.c:316 | At process start the initialized flag is unset (line 316) and no default password callback is registered (`globalPasswordCallback`, line 197), with no global reference held, so the reference bookkeeping is consistent. NSS is not up and the password hook is not installed. The FIPS mode is a parameter. The domestic policy and PKIX are off. The OCSP fields start as checking off, default responder off and none recorded; the code does not set these, so they are an assumption about NSS's defaults. |
| CryptoManager.ConfigureOcspNative | src/main/java/org/mozilla/jss/CryptoManager.c:958-975 | A runtime reconfiguration raises an error iff ConfigureOCSP refuses the configuration. On a refusal checking is off and the default-responder flag and responder are kept. On success checking is as requested. With a URL, success installs and enables that responder. Without one, the call succeeds, disables the default responder and keeps the recorded one. Only the OCSP state changes. |
| CryptoManager.EnableFips | src/main/java/org/mozilla/jss/CryptoManager.c:899-923 | On the live state, a switch is reported iff the mode differs. An error is raised iff the mode differs and the deletion fails, and then the mode is unchanged. Without an error the mode becomes the requested one. Nothing but the FIPS mode changes. |
| CryptoManager.SetNativePasswordCallback | src/main/java/org/mozilla/jss/CryptoManager.c:556-561 | On the live state, an error is raised iff a non-null callback's global reference cannot be created. The registered default is the argument unless an error was raised, in which case none is registered. Reference bookkeeping stays consistent, and nothing else changes. |
| CryptoManager.NoCallbackNoInvocation | src/main/java/org/mozilla/jss/CryptoManager.c:605-614 | From process start, with no default registered and no override, a login gets NULL and nothing is invoked. |
| CryptoManager.Step | src/main/java/org/mozilla/jss/CryptoManager.c:316-336 | No operation clears the initialized flag, and only initialization sets it. Every operation keeps the callback reference bookkeeping consistent. |
| CryptoManager.InitializedIsPermanent | src/main/java/org/mozilla/jss/CryptoManager.c:332-336 | Once the flag is set, it stays set through any run of operations. |
| CryptoManager.AtMostOneInitialization | src/main/java/org/mozilla/jss/CryptoManager.c:316-501 | In any run, initialization completes at most once, and never when the flag is already set. A run in which it completes ends initialized. |
| CryptoManager.CallbackRefsNeverLeak | src/main/java/org/mozilla/jss/CryptoManager.c:533-545 | Through any run of operations, the only global reference held is the one on the registered default callback. |

## Left out

- JNI marshalling is not modelled: string references, method-ID lookups,
  exception objects and the debug stack-trace printing. The one exception is
  the out-of-memory outcome of fetching the PKCS #11 strings, which is
  modelled.
- Capturing the JavaVM handle (`GetJavaVM`) is not modelled. The model assumes
  the handle is obtained, so the silent early return when it is not is
  missing.
- The error-code translation table has no observable state in this layer, so
  it is left out.
- The AIX/HP-UX SIGCHLD handler is platform signal set-up with no decision
  logic, so it is left out.
- NSS internals are only oracle inputs, because they are foreign code:
  `PK11_ConfigurePKCS11`, the entry points, OID registration, certificate
  lookup, `CERT_SetOCSPDefaultResponder`, the domestic policy,
  `SECMOD_DeleteInternalModule` and `SECMOD_ReferenceModule`/`DestroyModule`.
- Failed native calls are assumed to leave their own state unchanged. This
  covers a failed responder setter and a failed module deletion.
- The source ignores the status of `CERT_DisableOCSPChecking`,
  `CERT_EnableOCSPChecking`, `CERT_EnableOCSPDefaultResponder` and
  `CERT_DisableOCSPDefaultResponder`. The model assumes each of them takes
  effect.
- `ConfigureOCSP` does not model a failure to convert a non-null URL string.
  With the converted URL null, the code takes neither branch and leaves the
  default responder as it was.
- Several entry points are pass-throughs to one foreign call with no logic,
  so they are left out: `OCSPCacheSettingsNative`, `setOCSPTimeoutNative`,
  `closeDatabases`, `shutdownNative`, `FIPSEnabled` (a read of the FIPS mode),
  and the version, rcsid and sccsid accessors.
- Memory zeroing and freeing are recorded only as the `WipeBuffer` event.
  Byte-level zeroing has no meaning in a value model.
- Init.LengthsOk: lengths are counted in characters of the Java string. The
  code's `strlen` counts bytes of the modified UTF-8 form, so the two differ
  for non-ASCII strings.
- Password.CString: if the byte copy has no zero byte, the C code reads past
  its end. The model returns the whole copy instead.
- The `callbackClass == NULL` assertion in `getPWFromCallback` is not
  modelled. In release builds the code carries on after it, but
  `GetObjectClass` of a live callback does not return NULL.
- ModuleList.PutModulesInVector: the source does not check whether
  `addElement` threw, so the model treats every add as successful.
- ModuleList.PutModulesInVector: `JSS_PK11_wrapPK11Module` is not part of this
  model. A reference whose wrapping failed is released at the cleanup step;
  which of the two pieces of code drops it does not change the counts.
- Concurrency is not modelled: the Java side's serialization of
  `initialize`, the hook running on engine threads, and the module-list lock
  as an actual lock. The lock appears only as a record of acquire and release
  events.
- Fips.EnableFips: `enableFIPS` is a static native, so Java can call it
  before initialization. It then reads `SECMOD_GetInternalModule()->commonName`
  with no NULL check, which the model does not capture: it toggles the mode
  even when NSS is not up, in `Fips.EnableFips`, `CryptoManager.EnableFips`
  and `CryptoManager.Step`.
- LibraryState.Fresh: the FIPS mode NSS adopts when it starts is not modelled.
  It is folded into `Fresh`'s parameter, which is why `Init.Initialize` can
  promise that initialization leaves the mode unchanged.
- Init.InitFlags: the flags are modelled as ten distinct symbols, not as bits
  of a word. `nss.h` (not part of this model) defines `NSS_INIT_COOPERATE` as
  the union of `NSS_INIT_PK11THREADSAFE`, `NSS_INIT_PK11RELOAD`,
  `NSS_INIT_NOPK11FINALIZE` and `NSS_INIT_RESERVED`. So in the real flag word,
  setting `cooperate` also sets those four bits, whatever their own booleans
  say. The "in the set iff its boolean" property holds for the symbolic set
  only.
- Init.FlagsRoundTrip: the round trip holds for the symbolic set only. On the
  real flag word, reading the four bits that `NSS_INIT_COOPERATE` contains
  back from a word built with `cooperate` set gives true, so booleans with
  `cooperate` set and any of those four unset do not round-trip.
- Init.Initialize: the 33/65-character length checks on the eight PKCS #11
  strings are `PR_ASSERT`s in the code. In release builds they check nothing
  and initialization goes on to `PK11_ConfigurePKCS11` with the wrong-length
  strings; in debug builds a failed check aborts the process. The model
  instead refuses with an `InvalidLength` error at the same point, after the
  Java-only shortcut and the string fetch, before any native call.

## Findings

| source | as written | input that shows it | evidently intended | confidence | as-written member | corrected member |
|---|---|---|---|---|---|---|
| src/main/java/org/mozilla/jss/CryptoManager.c:617-620 | When `AttachCurrentThread` fails, the code jumps to `finish` without ever setting `env`. The cleanup at `finish` then calls `(*env)->ExceptionOccurred(env)` (line 747) through that unset pointer. | A login with a registered default callback while `AttachCurrentThread` returns non-zero | Return NULL without touching `env`, like every other failure of the hook | medium: the JVM does not set the pointer on failure; not executed | Password.GetPasswordAsWritten | Password.GetPassword |

=== FILE: base.dfy ===
/** Shared vocabulary of the model: optional values (the Java `null`),
    Java strings that may be null, and the status returned by a native
    library call. */
module Base {

  /** A value that may be absent; `None` models a null reference. */
  datatype Option<+T> = None | Some(value: T)

  /** A `jstring` argument: `None` is a Java `null`. */
  type JString = Option<string>

  /** The outcome of a native call: `SECSuccess`, or a failure carrying the
      error code the native library reports for it. */
  datatype NativeStatus = Succeeded | Failed(code: int)
}

=== FILE: crypto_manager.dfy ===
/** The runtime entry points of the CryptoManager native layer as
    transitions of the library state, and properties of arbitrary runs of
    them: the one-shot initialization flag, and the callback registry's
    reference bookkeeping. */
module CryptoManager {
  import opened Base
  import Ocsp
  import Password
  import Fips
  import Init
  import opened LibraryState

  /** Errors the entry points raise to Java. */
  datatype Error =
    | InitError(initError: Init.InitError)
    | OcspError(ocspError: Ocsp.OcspError)
    | FipsToggleFailed
    | OutOfMemory

  datatype StepResult = StepResult(lib: Library, error: Option<Error>)

  /** configureOCSPNative: ConfigureOCSP on the live state, whether or not
      the library was initialized; a refusal is raised as an error. */
  function ConfigureOcspNative(lib: Library, enabled: bool, url: JString, nickname: JString,
                               certs: Ocsp.CertStore, setOk: bool): (r: StepResult)
    ensures r.error.None? <==> Ocsp.Accepted(url, nickname, certs, setOk)
    ensures r.error.Some? ==>
              && !r.lib.ocsp.checking
              && r.lib.ocsp.defaultResponderOn == lib.ocsp.defaultResponderOn
              && r.lib.ocsp.responder == lib.ocsp.responder
    ensures r.error.None? && url.Some? ==>
              && nickname.Some?
              && r.lib.ocsp.defaultResponderOn
              && r.lib.ocsp.responder == Some(Ocsp.Responder(url.value, nickname.value))
    ensures url.None? ==>
              && r.error.None?
              && !r.lib.ocsp.defaultResponderOn
              && r.lib.ocsp.responder == lib.ocsp.responder
    ensures r.error.None? ==> r.lib.ocsp.checking == enabled
    ensures r.lib == lib.(ocsp := r.lib.ocsp)
  {
    var o := Ocsp.Configure(lib.ocsp, enabled, url, nickname, certs, setOk);
    StepResult(lib.(ocsp := o.state), if o.error.Some? then Some(OcspError(o.error.value)) else None)
  }

  /** The result of enableFIPS: the step, and whether a switch was
      reported to Java. */
  datatype FipsStep = FipsStep(result: StepResult, switched: bool)

  /** enableFIPS on the live state. */
  function EnableFips(lib: Library, requested: bool, deleteOk: bool): (r: FipsStep)
    ensures r.switched <==> requested != lib.fips
    ensures r.result.error.None? ==> r.result.lib.fips == requested
    ensures r.result.error.Some? <==> requested != lib.fips && !deleteOk
    ensures r.result.error.Some? ==> r.result.lib.fips == lib.fips
    ensures r.result.lib == lib.(fips := r.result.lib.fips)
  {
    var f := Fips.EnableFips(lib.fips, requested, deleteOk);
    FipsStep(StepResult(lib.(fips := f.fips), if f.error then Some(FipsToggleFailed) else None), f.switched)
  }

  /** setNativePasswordCallback on the live state. */
  function SetNativePasswordCallback(lib: Library, callback: Option<Password.CallbackRef>, newRefOk: bool): (r: StepResult)
    ensures r.error.Some? <==> callback.Some? && !newRefOk
    ensures r.error.None? ==> r.lib.callbacks.global == callback
    ensures r.error.Some? ==> r.lib.callbacks.global.None?
    ensures Password.Consistent(lib.callbacks) ==> Password.Consistent(r.lib.callbacks)
    ensures r.lib == lib.(callbacks := r.lib.callbacks)
  {
    var reg := Password.SetPasswordCallback(lib.callbacks, callback, newRefOk);
    StepResult(lib.(callbacks := reg.registry), if reg.outOfMemory then Some(OutOfMemory) else None)
  }

  /** The password hook as PKCS #11 calls it, with the registered default. */
  function GetPassword(lib: Library, override: Option<Password.CallbackRef>, slot: Option<Password.Slot>,
                       retry: bool, h: Password.Host): Password.PwOutcome
  {
    Password.GetPassword(lib.callbacks.global, override, slot, retry, h)
  }

  /** With no default callback registered and no override, a login gets no
      password and nothing is invoked. */
  lemma NoCallbackNoInvocation(fips: bool, slot: Password.Slot, retry: bool, h: Password.Host)
    ensures GetPassword(Fresh(fips), None, Some(slot), retry, h) == Password.PwOutcome(None, [])
  {
  }

  /** The operations that change the library state. */
  datatype Op =
    | Initialize(args: Init.InitArgs, oracle: Init.InitOracle)
    | ConfigureOcsp(enabled: bool, url: JString, nickname: JString, certs: Ocsp.CertStore, setOk: bool)
    | EnableFipsMode(requested: bool, deleteOk: bool)
    | SetPasswordCallback(callback: Option<Password.CallbackRef>, newRefOk: bool)

  function Step(lib: Library, op: Op): (r: StepResult)
    // the flag never goes back, and only initialization sets it
    ensures lib.initialized ==> r.lib.initialized
    ensures !op.Initialize? ==> r.lib.initialized == lib.initialized
    ensures Password.Consistent(lib.callbacks) ==> Password.Consistent(r.lib.callbacks)
  {
    match op
    case Initialize(a, o) =>
      var i := Init.Initialize(lib, a, o);
      StepResult(i.lib, if i.error.Some? then Some(InitError(i.error.value)) else None)
    case ConfigureOcsp(enabled, url, nickname, certs, setOk) =>
      ConfigureOcspNative(lib, enabled, url, nickname, certs, setOk)
    case EnableFipsMode(requested, deleteOk) =>
      EnableFips(lib, requested, deleteOk).result
    case SetPasswordCallback(callback, newRefOk) =>
      SetNativePasswordCallback(lib, callback, newRefOk)
  }

  /** The state after running `ops` in order. */
  function Run(lib: Library, ops: seq<Op>): Library
    decreases |ops|
  {
    if ops == [] then lib else Run(Step(lib, ops[0]).lib, ops[1..])
  }

  /** How many operations of a run are initializations that complete. */
  function CompletedInits(lib: Library, ops: seq<Op>): nat
    decreases |ops|
  {
    if ops == [] then 0
    else
      var r := Step(lib, ops[0]);
      (if ops[0].Initialize? && r.error.None? then 1 else 0) + CompletedInits(r.lib, ops[1..])
  }

  /** Once initialized, always initialized. */
  lemma {:induction false} InitializedIsPermanent(lib: Library, ops: seq<Op>)
    requires lib.initialized
    ensures Run(lib, ops).initialized
    decreases |ops|
  {
    if ops != [] {
      InitializedIsPermanent(Step(lib, ops[0]).lib, ops[1..]);
    }
  }

  /** Initialization completes at most once in any run, and not at all
      once the flag is set. */
  lemma {:induction false} AtMostOneInitialization(lib: Library, ops: seq<Op>)
    ensures CompletedInits(lib, ops) <= (if lib.initialized then 0 else 1)
    ensures CompletedInits(lib, ops) == 1 ==> Run(lib, ops).initialized
    decreases |ops|
  {
    if ops != [] {
      var r := Step(lib, ops[0]);
      AtMostOneInitialization(r.lib, ops[1..]);
      if ops[0].Initialize? && r.error.None? {
        assert r.lib.initialized;
        InitializedIsPermanent(r.lib, ops[1..]);
      }
    }
  }

  /** In any run, the bridge holds a global reference on the registered
      default callback and on nothing else. */
  lemma {:induction false} CallbackRefsNeverLeak(lib: Library, ops: seq<Op>)
    requires Password.Consistent(lib.callbacks)
    ensures Password.Consistent(Run(lib, ops).callbacks)
    decreases |ops|
  {
    if ops != [] {
      CallbackRefsNeverLeak(Step(lib, ops[0]).lib, ops[1..]);
    }
  }
}

=== FILE: fips.dfy ===
/** The FIPS toggle (`enableFIPS` in CryptoManager.c). The mode is switched
    by deleting the internal PKCS #11 module, which makes the library load
    the internal module of the other mode; the deletion's status is an
    oracle input. */
module Fips {

  /** The FIPS mode after the call, whether the call reports a switch, and
      whether it raised an error (a failed deletion). */
  datatype FipsOutcome = FipsOutcome(fips: bool, switched: bool, error: bool)

  /** enableFIPS(requested) with the library currently in mode `current`.
      `deleteOk` is the status of deleting the internal module. */
  function EnableFips(current: bool, requested: bool, deleteOk: bool): (r: FipsOutcome)
    // a switch is reported exactly when the requested mode differs
    ensures r.switched <==> requested != current
    // unless the native toggle failed, the library ends in the requested mode
    ensures !r.error ==> r.fips == requested
    ensures r.error <==> r.switched && !deleteOk
    ensures r.error ==> r.fips == current
  {
    if requested != current then
      FipsOutcome(if deleteOk then requested else current, true, !deleteOk)
    else
      FipsOutcome(current, false, false)
  }

  /** Asking again for the mode a successful call produced switches
      nothing, whatever the second deletion would have done. */
  lemma RepeatedRequestIsNoOp(current: bool, requested: bool, deleteOk: bool, again: bool)
    requires !EnableFips(current, requested, deleteOk).error
    ensures var once := EnableFips(current, requested, deleteOk);
            EnableFips(once.fips, requested, again) == FipsOutcome(requested, false, false)
  {
  }

  /** From non-FIPS mode, enabling FIPS twice reports true and then false. */
  lemma EnableTwiceFromNonFips(again: bool)
    ensures var first := EnableFips(false, true, true);
            var second := EnableFips(first.fips, true, again);
            first.switched && first.fips && !second.switched && second.fips
  {
  }
}

=== FILE: init.dfy ===
/** The initialization state machine (`initializeAllNative2` in
    CryptoManager.c): argument validation, the one-shot flag, the
    Java-only shortcut, the choice of NSS entry point with its flag set,
    and the fail-fast sequence of native steps. Native outcomes are oracle
    inputs; the native calls made are recorded in order. */
module Init {
  import opened Base
  import Ocsp
  import opened LibraryState

  /** Exact lengths of the PKCS #11 descriptor strings: the four names
      are 33 characters, the four slot descriptions 65. */
  const ShortLength := 33
  const LongLength := 65

  /** Arguments PK11_ConfigurePKCS11 is always given. */
  const MinPinLength := 0
  const PasswordRequired := false

  /** The eight PKCS #11 identity strings. */
  datatype Pkcs11Strings = Pkcs11Strings(
    manufacturer: JString, library: JString, token: JString, keyToken: JString,
    slot: JString, keySlot: JString, fipsSlot: JString, fipsKeySlot: JString)

  predicate AllPresent(p: Pkcs11Strings) {
    && p.manufacturer.Some? && p.library.Some? && p.token.Some? && p.keyToken.Some?
    && p.slot.Some? && p.keySlot.Some? && p.fipsSlot.Some? && p.fipsKeySlot.Some?
  }

  predicate LengthsOk(p: Pkcs11Strings)
    requires AllPresent(p)
  {
    && |p.manufacturer.value| == ShortLength && |p.library.value| == ShortLength
    && |p.token.value| == ShortLength && |p.keyToken.value| == ShortLength
    && |p.slot.value| == LongLength && |p.keySlot.value| == LongLength
    && |p.fipsSlot.value| == LongLength && |p.fipsKeySlot.value| == LongLength
  }

  /** The nine booleans that only the extended entry point understands. */
  datatype ExtendedOptions = ExtendedOptions(
    noCertDb: bool, noModDb: bool, forceOpen: bool, noRootInit: bool, optimizeSpace: bool,
    pk11ThreadSafe: bool, pk11Reload: bool, noPk11Finalize: bool, cooperate: bool)

  predicate AnyExtended(x: ExtendedOptions) {
    x.noCertDb || x.noModDb || x.forceOpen || x.noRootInit || x.optimizeSpace
    || x.pk11ThreadSafe || x.pk11Reload || x.noPk11Finalize || x.cooperate
  }

  datatype InitArgs = InitArgs(
    configDir: JString, certPrefix: JString, keyPrefix: JString, secmodName: JString,
    readOnly: bool, pkcs11: Pkcs11Strings,
    ocspEnabled: bool, ocspUrl: JString, ocspNickname: JString,
    javaOnly: bool, pkixVerify: bool, ext: ExtendedOptions)

  /** The required strings: the configuration directory and the eight
      PKCS #11 strings. Prefixes, module database name and OCSP strings may
      be null. */
  predicate HasNullRequired(a: InitArgs) {
    a.configDir.None? || !AllPresent(a.pkcs11)
  }

  /** The NSS_INIT_* flags of the extended entry point. */
  datatype InitFlag =
    | ReadOnly | NoCertDb | NoModDb | ForceOpen | NoRootInit | OptimizeSpace
    | Pk11ThreadSafe | Pk11Reload | NoPk11Finalize | Cooperate

  const AllFlags: set<InitFlag> :=
    {ReadOnly, NoCertDb, NoModDb, ForceOpen, NoRootInit, OptimizeSpace,
     Pk11ThreadSafe, Pk11Reload, NoPk11Finalize, Cooperate}

  /** The boolean argument each flag is taken from. */
  function Source(f: InitFlag, readOnly: bool, x: ExtendedOptions): bool {
    match f
    case ReadOnly => readOnly
    case NoCertDb => x.noCertDb
    case NoModDb => x.noModDb
    case ForceOpen => x.forceOpen
    case NoRootInit => x.noRootInit
    case OptimizeSpace => x.optimizeSpace
    case Pk11ThreadSafe => x.pk11ThreadSafe
    case Pk11Reload => x.pk11Reload
    case NoPk11Finalize => x.noPk11Finalize
    case Cooperate => x.cooperate
  }

  /** The flag set built from the booleans: a flag is set exactly when
      its boolean is true. */
  function InitFlags(readOnly: bool, x: ExtendedOptions): (flags: set<InitFlag>)
    ensures ReadOnly in flags <==> readOnly
    ensures NoCertDb in flags <==> x.noCertDb
    ensures NoModDb in flags <==> x.noModDb
    ensures ForceOpen in flags <==> x.forceOpen
    ensures NoRootInit in flags <==> x.noRootInit
    ensures OptimizeSpace in flags <==> x.optimizeSpace
    ensures Pk11ThreadSafe in flags <==> x.pk11ThreadSafe
    ensures Pk11Reload in flags <==> x.pk11Reload
    ensures NoPk11Finalize in flags <==> x.noPk11Finalize
    ensures Cooperate in flags <==> x.cooperate
  {
    set f <- AllFlags | Source(f, readOnly, x)
  }

  /** Reading the booleans back out of a flag set. */
  function ReadFlags(flags: set<InitFlag>): (bool, ExtendedOptions) {
    (ReadOnly in flags,
     ExtendedOptions(NoCertDb in flags, NoModDb in flags, ForceOpen in flags, NoRootInit in flags,
                     OptimizeSpace in flags, Pk11ThreadSafe in flags, Pk11Reload in flags,
                     NoPk11Finalize in flags, Cooperate in flags))
  }

  /** The flag set loses nothing: the booleans can be read back from it,
      and every flag set is built from the booleans it encodes. */
  lemma FlagsRoundTrip(readOnly: bool, x: ExtendedOptions, flags: set<InitFlag>)
    ensures ReadFlags(InitFlags(readOnly, x)) == (readOnly, x)
    ensures InitFlags(ReadFlags(flags).0, ReadFlags(flags).1) == flags
  {
    var rebuilt := InitFlags(ReadFlags(flags).0, ReadFlags(flags).1);
    forall f: InitFlag
      ensures f in rebuilt <==> f in flags
    {
      match f
      case ReadOnly =>
      case NoCertDb =>
      case NoModDb =>
      case ForceOpen =>
      case NoRootInit =>
      case OptimizeSpace =>
      case Pk11ThreadSafe =>
      case Pk11Reload =>
      case NoPk11Finalize =>
      case Cooperate =>
    }
  }

  /** The NSS entry points. */
  datatype EntryPoint =
    | NssInit(dir: string)
    | NssInitReadWrite(dir: string)
    | NssInitialize(dir: string, certPrefix: JString, keyPrefix: JString, secmodName: JString,
                    flags: set<InitFlag>)

  /** The extended entry point is needed when a prefix or a module
      database name is given, or any extended boolean is set. */
  predicate NeedsExtended(a: InitArgs) {
    a.certPrefix.Some? || a.keyPrefix.Some? || a.secmodName.Some? || AnyExtended(a.ext)
  }

  function SelectEntryPoint(dir: string, a: InitArgs): (e: EntryPoint)
    ensures e.dir == dir
    ensures e.NssInitialize? <==> NeedsExtended(a)
    ensures !NeedsExtended(a) ==> (e.NssInit? <==> a.readOnly)
    ensures e.NssInitialize? ==>
              && e.certPrefix == a.certPrefix && e.keyPrefix == a.keyPrefix
              && e.secmodName == a.secmodName
              && ReadFlags(e.flags) == (a.readOnly, a.ext)
  {
    if NeedsExtended(a) then
      var flags := InitFlags(a.readOnly, a.ext);
      FlagsRoundTrip(a.readOnly, a.ext, flags);
      NssInitialize(dir, a.certPrefix, a.keyPrefix, a.secmodName, flags)
    else if a.readOnly then NssInit(dir)
    else NssInitReadWrite(dir)
  }

  /** Whether an entry point opens the databases read-only. */
  predicate OpensReadOnly(e: EntryPoint) {
    e.NssInit? || (e.NssInitialize? && ReadOnly in e.flags)
  }

  /** Both entry-point paths take read-only mode from the one `readOnly`
      argument. */
  lemma ReadOnlyHasOneSource(dir: string, a: InitArgs)
    ensures OpensReadOnly(SelectEntryPoint(dir, a)) <==> a.readOnly
  {
  }

  /** Outcomes of the native steps.
      `stringsOk`: the PKCS #11 strings could be obtained from Java;
      `nssInit`, `oids`: status of the entry point and of the dynamic OID
      registration; `certs`, `setResponderOk`: the oracle of the OCSP
      configuration; `policyOk`: setting the domestic policy succeeded. */
  datatype InitOracle = InitOracle(
    stringsOk: bool, nssInit: NativeStatus, oids: NativeStatus,
    certs: Ocsp.CertStore, setResponderOk: bool, policyOk: bool)

  datatype InitError =
    | NullPointer
    | AlreadyInitialized
    | OutOfMemory
    | InvalidLength
    | SecurityInit(code: int)
    | OidRegistration(code: int)
    | OcspFailed(reason: Ocsp.OcspError)
    | Policy

  /** Native calls made by initialization, in order. */
  datatype NativeCall =
    | ConfigurePkcs11(strings: Pkcs11Strings, minPinLength: int, passwordRequired: bool)
    | Open(entry: EntryPoint)
    | RegisterOids
    | SetPasswordFunc
    | ConfigureOcsp(ocspCalls: seq<Ocsp.OcspCall>)
    | SetDomesticPolicy
    | UsePkix

  datatype InitOutcome = InitOutcome(lib: Library, calls: seq<NativeCall>, error: Option<InitError>)

  /** The native steps all succeed. */
  predicate NativeStepsSucceed(a: InitArgs, o: InitOracle)
    requires AllPresent(a.pkcs11)
  {
    && o.stringsOk
    && LengthsOk(a.pkcs11)
    && o.nssInit.Succeeded?
    && o.oids.Succeeded?
    && Ocsp.Accepted(a.ocspUrl, a.ocspNickname, o.certs, o.setResponderOk)
    && o.policyOk
  }

  /** The conditions under which initialization completes. */
  predicate Completes(lib: Library, a: InitArgs, o: InitOracle) {
    && !HasNullRequired(a)
    && !lib.initialized
    && (a.javaOnly || NativeStepsSucceed(a, o))
  }

  /** The checks before the first native call all pass. */
  predicate ReachesNative(lib: Library, a: InitArgs, o: InitOracle) {
    && !HasNullRequired(a) && !lib.initialized && !a.javaOnly
    && o.stringsOk && LengthsOk(a.pkcs11)
  }

  /** The native steps after OID registration, on a library whose OIDs are
      registered: install the password hook, configure OCSP with the
      initialization's own arguments, set the domestic policy and, if asked,
      select PKIX; only then is the flag set. */
  function AfterOids(lib: Library, a: InitArgs, o: InitOracle): (r: InitOutcome)
    // the hook is installed, then ConfigureOCSP runs, whatever follows
    ensures var oc := Ocsp.Configure(lib.ocsp, a.ocspEnabled, a.ocspUrl, a.ocspNickname, o.certs, o.setResponderOk);
            && |r.calls| >= 2
            && r.calls[0] == SetPasswordFunc && r.calls[1] == ConfigureOcsp(oc.calls)
            && r.lib.passwordHook && r.lib.ocsp == oc.state && r.lib.nssUp == lib.nssUp
            && (oc.error.Some? ==>
                  r == InitOutcome(lib.(passwordHook := true, ocsp := oc.state), r.calls,
                                   Some(OcspFailed(oc.error.value))))
    ensures r.error.None? <==> Ocsp.Accepted(a.ocspUrl, a.ocspNickname, o.certs, o.setResponderOk) && o.policyOk
    ensures Ocsp.Accepted(a.ocspUrl, a.ocspNickname, o.certs, o.setResponderOk) && !o.policyOk ==>
              r.error == Some(Policy) && r.lib.initialized == lib.initialized
    ensures r.lib.initialized <==> lib.initialized || r.error.None?
    ensures r.error.None? ==>
              && |r.calls| == (if a.pkixVerify then 4 else 3)
              && r.calls[2] == SetDomesticPolicy
              && (a.pkixVerify ==> r.calls[3] == UsePkix)
              && r.lib.domesticPolicy
              && (r.lib.pkix <==> lib.pkix || a.pkixVerify)
    ensures r.lib.fips == lib.fips && r.lib.callbacks == lib.callbacks
  {
    var lib1 := lib.(passwordHook := true);
    var oc := Ocsp.Configure(lib1.ocsp, a.ocspEnabled, a.ocspUrl, a.ocspNickname,
                             o.certs, o.setResponderOk);
    var lib2 := lib1.(ocsp := oc.state);
    var c1 := [SetPasswordFunc, ConfigureOcsp(oc.calls)];
    if oc.error.Some? then InitOutcome(lib2, c1, Some(OcspFailed(oc.error.value)))
    else if !o.policyOk then InitOutcome(lib2, c1 + [SetDomesticPolicy], Some(Policy))
    else
      var lib3 := lib2.(domesticPolicy := true, initialized := true);
      if a.pkixVerify then InitOutcome(lib3.(pkix := true), c1 + [SetDomesticPolicy, UsePkix], None)
      else InitOutcome(lib3, c1 + [SetDomesticPolicy], None)
  }

  /** The native part of initialization: each step runs only if the one
      before it succeeded; only the last flips the flag. */
  function NativeSequence(lib: Library, a: InitArgs, o: InitOracle): (r: InitOutcome)
    requires !HasNullRequired(a)
    ensures r.error.None? <==>
              && o.nssInit.Succeeded? && o.oids.Succeeded?
              && Ocsp.Accepted(a.ocspUrl, a.ocspNickname, o.certs, o.setResponderOk) && o.policyOk
    ensures r.lib.initialized <==> lib.initialized || r.error.None?
    // the entry point is opened right after the PKCS #11 configuration,
    // and its failure changes nothing
    ensures |r.calls| >= 2
    ensures r.calls[0] == ConfigurePkcs11(a.pkcs11, MinPinLength, PasswordRequired)
    ensures r.calls[1] == Open(SelectEntryPoint(a.configDir.value, a))
    ensures o.nssInit.Failed? ==> r == InitOutcome(lib, r.calls, Some(SecurityInit(o.nssInit.code))) && |r.calls| == 2
    ensures o.nssInit.Succeeded? && o.oids.Failed? ==>
              r.lib == lib.(nssUp := true) && r.error == Some(OidRegistration(o.oids.code))
    // past the OIDs: the hook, then ConfigureOCSP on the initialization's
    // own arguments, then the policy
    ensures o.nssInit.Succeeded? && o.oids.Succeeded? ==>
              var oc := Ocsp.Configure(lib.ocsp, a.ocspEnabled, a.ocspUrl, a.ocspNickname, o.certs, o.setResponderOk);
              && |r.calls| >= 5
              && r.calls[2] == RegisterOids && r.calls[3] == SetPasswordFunc
              && r.calls[4] == ConfigureOcsp(oc.calls)
              && r.lib.nssUp && r.lib.passwordHook && r.lib.ocsp == oc.state
              && (oc.error.Some? ==>
                    && r.lib == lib.(nssUp := true, passwordHook := true, ocsp := oc.state)
                    && r.error == Some(OcspFailed(oc.error.value)))
    ensures o.nssInit.Succeeded? && o.oids.Succeeded?
            && Ocsp.Accepted(a.ocspUrl, a.ocspNickname, o.certs, o.setResponderOk) && !o.policyOk ==>
              r.error == Some(Policy) && r.lib.nssUp && r.lib.passwordHook && r.lib.initialized == lib.initialized
    ensures r.error.None? ==>
              && |r.calls| == (if a.pkixVerify then 7 else 6)
              && r.calls[5] == SetDomesticPolicy
              && (a.pkixVerify ==> r.calls[6] == UsePkix)
              && r.lib.domesticPolicy
              && (r.lib.pkix <==> lib.pkix || a.pkixVerify)
    ensures r.lib.fips == lib.fips && r.lib.callbacks == lib.callbacks
  {
    var entry := SelectEntryPoint(a.configDir.value, a);
    var c1 := [ConfigurePkcs11(a.pkcs11, MinPinLength, PasswordRequired), Open(entry)];
    match o.nssInit
    case Failed(code) => InitOutcome(lib, c1, Some(SecurityInit(code)))
    case Succeeded =>
      var lib1 := lib.(nssUp := true);
      var c2 := c1 + [RegisterOids];
      match o.oids
      case Failed(code) => InitOutcome(lib1, c2, Some(OidRegistration(code)))
      case Succeeded =>
        var t := AfterOids(lib1, a, o);
        InitOutcome(t.lib, c2 + t.calls, t.error)
  }

  /** initializeAllNative2. */
  function Initialize(lib: Library, a: InitArgs, o: InitOracle): (r: InitOutcome)
    // a null required string is reported first, whatever the state
    ensures HasNullRequired(a) ==> r == InitOutcome(lib, [], Some(NullPointer))
    ensures !HasNullRequired(a) && lib.initialized ==> r == InitOutcome(lib, [], Some(AlreadyInitialized))
    // success exactly when every step succeeds
    ensures r.error.None? <==> Completes(lib, a, o)
    // the flag is set by success and only by success
    ensures r.lib.initialized <==> lib.initialized || r.error.None?
    // the Java-only shortcut touches nothing native
    ensures r.error.None? && a.javaOnly ==> r.lib == lib.(initialized := true) && r.calls == []
    // each failing step, from the input side: the first failure decides the error
    ensures !HasNullRequired(a) && !lib.initialized && !a.javaOnly && !o.stringsOk ==>
              r == InitOutcome(lib, [], Some(OutOfMemory))
    ensures !HasNullRequired(a) && !lib.initialized && !a.javaOnly && o.stringsOk && !LengthsOk(a.pkcs11) ==>
              r == InitOutcome(lib, [], Some(InvalidLength))
    ensures ReachesNative(lib, a, o) && o.nssInit.Failed? ==>
              && r.lib == lib && r.error == Some(SecurityInit(o.nssInit.code))
              && r.calls == [ConfigurePkcs11(a.pkcs11, MinPinLength, PasswordRequired),
                             Open(SelectEntryPoint(a.configDir.value, a))]
    ensures ReachesNative(lib, a, o) && o.nssInit.Succeeded? && o.oids.Failed? ==>
              r.lib == lib.(nssUp := true) && r.error == Some(OidRegistration(o.oids.code))
    ensures ReachesNative(lib, a, o) && o.nssInit.Succeeded? && o.oids.Succeeded?
            && !Ocsp.Accepted(a.ocspUrl, a.ocspNickname, o.certs, o.setResponderOk) ==>
              var oc := Ocsp.Configure(lib.ocsp, a.ocspEnabled, a.ocspUrl, a.ocspNickname, o.certs, o.setResponderOk);
              && oc.error.Some?
              && r.error == Some(OcspFailed(oc.error.value))
              && r.lib == lib.(nssUp := true, passwordHook := true, ocsp := oc.state)
    ensures ReachesNative(lib, a, o) && o.nssInit.Succeeded? && o.oids.Succeeded?
            && Ocsp.Accepted(a.ocspUrl, a.ocspNickname, o.certs, o.setResponderOk) && !o.policyOk ==>
              r.error == Some(Policy) && r.lib.nssUp && r.lib.passwordHook && !r.lib.initialized
    // on full success every native step ran, in order
    ensures r.error.None? && !a.javaOnly ==>
              && |r.calls| == (if a.pkixVerify then 7 else 6)
              && r.calls[0] == ConfigurePkcs11(a.pkcs11, MinPinLength, PasswordRequired)
              && r.calls[1] == Open(SelectEntryPoint(a.configDir.value, a))
              && r.calls[2] == RegisterOids
              && r.calls[3] == SetPasswordFunc
              && r.calls[4].ConfigureOcsp?
              && r.calls[5] == SetDomesticPolicy
              && (a.pkixVerify ==> r.calls[6] == UsePkix)
              && r.lib.nssUp && r.lib.passwordHook && r.lib.domesticPolicy
              && r.lib.ocsp.checking == a.ocspEnabled
              && (r.lib.pkix <==> lib.pkix || a.pkixVerify)
    // the OCSP step is ConfigureOCSP on the initialization's own arguments
    ensures r.error.None? && !a.javaOnly ==>
              var oc := Ocsp.Configure(lib.ocsp, a.ocspEnabled, a.ocspUrl, a.ocspNickname, o.certs, o.setResponderOk);
              && r.lib.ocsp == oc.state
              && r.calls[4] == ConfigureOcsp(oc.calls)
    // initialization never changes the FIPS mode or the callback registry
    ensures r.lib.fips == lib.fips && r.lib.callbacks == lib.callbacks
  {
    if HasNullRequired(a) then InitOutcome(lib, [], Some(NullPointer))
    else if lib.initialized then InitOutcome(lib, [], Some(AlreadyInitialized))
    else if a.javaOnly then InitOutcome(lib.(initialized := true), [], None)
    else if !o.stringsOk then InitOutcome(lib, [], Some(OutOfMemory))
    else if !LengthsOk(a.pkcs11) then InitOutcome(lib, [], Some(InvalidLength))
    else NativeSequence(lib, a, o)
  }

  /** The error alone tells what a failed initialization did: a malformed
      or unobtainable PKCS #11 string is refused before any native call, a
      failed entry point leaves everything as it was, and any later failure
      leaves the library brought up but not marked initialized. */
  lemma ErrorDeterminesEffect(lib: Library, a: InitArgs, o: InitOracle)
    ensures var r := Initialize(lib, a, o);
            && (r.error == Some(InvalidLength) ==> r.lib == lib && r.calls == [])
            && (r.error == Some(OutOfMemory) ==> r.lib == lib && r.calls == [])
            && (r.error.Some? && r.error.value.SecurityInit? ==>
                  r.lib == lib && o.nssInit == Failed(r.error.value.code))
            && (r.error.Some? && (r.error.value.OidRegistration? || r.error.value.OcspFailed? || r.error.value.Policy?) ==>
                  r.lib.nssUp && !r.lib.initialized)
  {
  }

  /** A successful initialization given a responder URL leaves that
      responder installed and enabled. */
  lemma InitInstallsResponder(lib: Library, a: InitArgs, o: InitOracle)
    requires Initialize(lib, a, o).error.None? && !a.javaOnly && a.ocspUrl.Some?
    ensures var r := Initialize(lib, a, o);
            && a.ocspNickname.Some?
            && r.lib.ocsp.defaultResponderOn
            && r.lib.ocsp.responder == Some(Ocsp.Responder(a.ocspUrl.value, a.ocspNickname.value))
  {
  }

  /** A second initialization after a successful one is refused and
      changes nothing. */
  lemma SecondInitializeIsRefused(lib: Library, a: InitArgs, o: InitOracle, b: InitArgs, p: InitOracle)
    requires Initialize(lib, a, o).error.None?
    requires !HasNullRequired(b)
    ensures var first := Initialize(lib, a, o);
            Initialize(first.lib, b, p) == InitOutcome(first.lib, [], Some(AlreadyInitialized))
  {
  }
}

=== FILE: library.dfy ===
/** The abstract, process-wide state the CryptoManager native layer
    drives: its own one-shot flag and callback registry, and the parts of
    the security library's state its calls change. */
module LibraryState {
  import opened Base
  import Ocsp
  import Password

  datatype Library = Library(
    initialized: bool,      // the one-shot flag of initializeAllNative2
    nssUp: bool,            // an NSS entry point has succeeded
    passwordHook: bool,     // getPWFromCallback is the PKCS #11 password function
    ocsp: Ocsp.OcspState,   // revocation checking of the default certificate database
    domesticPolicy: bool,   // the domestic cipher policy is in force
    pkix: bool,             // certificate validation uses the PKIX engine
    fips: bool,             // the internal module runs in FIPS mode
    callbacks: Password.CallbackRegistry)

  /** The state at process start: nothing initialized, no default
      password callback, the library in mode `fips`. */
  function Fresh(fips: bool): (lib: Library)
    ensures !lib.initialized && !lib.nssUp && !lib.passwordHook
    ensures lib.callbacks.global.None? && Password.Consistent(lib.callbacks)
    ensures lib.fips == fips
    ensures lib.ocsp == Ocsp.OcspState(false, false, None) && !lib.domesticPolicy && !lib.pkix
  {
    Library(false, false, false, Ocsp.OcspState(false, false, None), false, false, fips,
            Password.CallbackRegistry(None, multiset{}))
  }
}

=== FILE: modules.dfy ===
/** Enumeration of the loaded PKCS #11 modules (`putModulesInVector` in
    CryptoManager.c). Modules are identified by their position in the
    default module list and described by their reference counts; the
    JNI lookups and the wrapping of each module are oracle inputs. */
module ModuleList {
  import opened Base

  /** Events on the default module-list lock. */
  datatype LockEvent = ReadLock | ReadUnlock

  /** Total number of references held on the modules of a list. */
  function Sum(refs: seq<nat>): nat {
    if refs == [] then 0 else refs[0] + Sum(refs[1..])
  }

  /** Taking one extra reference on each of the first `k` modules adds
      exactly `k` references in all. */
  lemma {:induction false} SumOfIncrementedPrefix(refs: seq<nat>, after: seq<nat>, k: nat)
    requires |after| == |refs| && k <= |refs|
    requires forall i :: 0 <= i < |refs| ==> after[i] == refs[i] + (if i < k then 1 else 0)
    ensures Sum(after) == Sum(refs) + k
  {
    if refs != [] {
      var k' := if k > 0 then k - 1 else 0;
      forall i | 0 <= i < |refs[1..]|
        ensures after[1..][i] == refs[1..][i] + (if i < k' then 1 else 0)
      {
        assert after[i + 1] == refs[i + 1] + (if i + 1 < k then 1 else 0);
      }
      SumOfIncrementedPrefix(refs[1..], after[1..], k');
    }
  }

  /** putModulesInVector over a module list with reference counts `refs`.
      `idsOk`: the Vector class and its addElement method were found;
      `wrapOk[i]`: wrapping module `i` in a PK11Module succeeded.
      Returns the positions of the wrapped modules, in list order, the
      reference counts afterwards, and the lock events. */
  method PutModulesInVector(refs: seq<nat>, idsOk: bool, wrapOk: seq<bool>)
    returns (vector: seq<nat>, refsAfter: seq<nat>, locks: seq<LockEvent>)
    requires |wrapOk| == |refs|
    // the read lock is released exactly when it was taken
    ensures locks == (if idsOk then [ReadLock, ReadUnlock] else [])
    // modules are wrapped in list order, stopping at the first failure
    ensures |vector| <= |refs|
    ensures forall k :: 0 <= k < |vector| ==> vector[k] == k && wrapOk[k]
    ensures !idsOk ==> vector == []
    ensures idsOk ==> |vector| == |refs| || (|vector| < |refs| && !wrapOk[|vector|])
    // each wrapper owns one new reference; no other reference is left taken
    ensures |refsAfter| == |refs|
    ensures forall i :: 0 <= i < |refs| ==> refsAfter[i] == refs[i] + (if i < |vector| then 1 else 0)
    // so releasing every wrapper restores the list's reference total
    ensures Sum(refsAfter) == Sum(refs) + |vector|
  {
    vector := [];
    refsAfter := refs;
    locks := [];
    if !idsOk {
      SumOfIncrementedPrefix(refs, refsAfter, 0);
      return;
    }
    locks := locks + [ReadLock];
    // the module whose reference was taken but not handed to a wrapper
    var held: Option<nat> := None;
    var i := 0;
    while i < |refs| && held.None?
      invariant 0 <= i <= |refs|
      invariant |refsAfter| == |refs|
      invariant |vector| == i
      invariant forall k :: 0 <= k < i ==> vector[k] == k && wrapOk[k]
      invariant held.Some? ==> held.value == i && i < |refs| && !wrapOk[i]
      invariant forall k :: 0 <= k < |refs| ==>
                  refsAfter[k] == refs[k] + (if k < i || held == Some(k) then 1 else 0)
      decreases |refs| - i, if held.None? then 1 else 0
    {
      refsAfter := refsAfter[i := refsAfter[i] + 1];
      if wrapOk[i] {
        vector := vector + [i];
        i := i + 1;
      } else {
        held := Some(i);
      }
    }
    locks := locks + [ReadUnlock];
    // cleanup: drop the reference no wrapper took
    if held.Some? {
      refsAfter := refsAfter[held.value := refsAfter[held.value] - 1];
    }
    SumOfIncrementedPrefix(refs, refsAfter, |vector|);
  }
}

=== FILE: ocsp.dfy ===
/** The OCSP configurator (`ConfigureOCSP` in CryptoManager.c): a small
    state machine over the revocation-checking state of the default
    certificate database. Certificate lookups and the native
    default-responder setter are oracle inputs. */
module Ocsp {
  import opened Base

  /** A default OCSP responder: its URL and the nickname of its signing
      certificate. */
  datatype Responder = Responder(url: string, nickname: string)

  /** Revocation-checking state of the certificate database: whether
      checking is on, whether the default responder is used, and which
      default responder is recorded. */
  datatype OcspState = OcspState(checking: bool, defaultResponderOn: bool, responder: Option<Responder>)

  /** The certificate nicknames that resolve: those in the persistent
      certificate database, and those among certificates on attached
      tokens. */
  datatype CertStore = CertStore(certDb: set<string>, tokens: set<string>)

  /** The native calls ConfigureOCSP makes, in the order it makes them. */
  datatype OcspCall =
    | DisableChecking
    | FindCertInDb(nickname: string)
    | FindCertOnToken(nickname: string)
    | SetDefaultResponder(url: string, nickname: string)
    | EnableDefaultResponder
    | DisableDefaultResponder
    | EnableChecking

  /** Why a configuration is refused. */
  datatype OcspError =
    | MissingNickname     // a responder URL without a certificate nickname
    | CertNotFound        // the nickname resolves neither in the database nor on a token
    | ResponderSetFailed  // the native setter of the default responder failed

  datatype OcspOutcome = OcspOutcome(state: OcspState, calls: seq<OcspCall>, error: Option<OcspError>)

  /** A nickname resolves when it names a certificate in the database or,
      failing that, on some token. */
  predicate Resolvable(store: CertStore, nickname: string) {
    nickname in store.certDb || nickname in store.tokens
  }

  /** The configurations ConfigureOCSP accepts: either no responder URL, or
      a URL paired with a nickname that resolves, and a native setter that
      succeeds. */
  predicate Accepted(url: JString, nickname: JString, store: CertStore, setOk: bool) {
    url.None? || (nickname.Some? && Resolvable(store, nickname.value) && setOk)
  }

  /** The certificate lookups made for `nickname`: the database first, the
      tokens only when the database has no match. */
  function Lookups(store: CertStore, nickname: string): (r: seq<OcspCall>)
    ensures 0 < |r| && r[0] == FindCertInDb(nickname)
    ensures FindCertOnToken(nickname) in r <==> nickname !in store.certDb
    ensures |r| <= 2
  {
    if nickname in store.certDb then [FindCertInDb(nickname)]
    else [FindCertInDb(nickname), FindCertOnToken(nickname)]
  }

  /** Checking is re-enabled last, and only when requested. */
  function Finish(s: OcspState, enabled: bool, calls: seq<OcspCall>): OcspOutcome {
    if enabled then OcspOutcome(s.(checking := true), calls + [EnableChecking], None)
    else OcspOutcome(s, calls, None)
  }

  /** ConfigureOCSP: disable checking, validate and install (or clear) the
      default responder, then re-enable checking if requested. `setOk` is
      the outcome of the native default-responder setter. */
  function Configure(s: OcspState, enabled: bool, url: JString, nickname: JString,
                     store: CertStore, setOk: bool): (r: OcspOutcome)
    // checking is always switched off before anything else happens
    ensures |r.calls| > 0 && r.calls[0] == DisableChecking
    ensures r.error.None? <==> Accepted(url, nickname, store, setOk)
    // a refused configuration leaves checking off and the responder untouched
    ensures r.error.Some? ==>
              && !r.state.checking
              && r.state.defaultResponderOn == s.defaultResponderOn
              && r.state.responder == s.responder
              && EnableChecking !in r.calls
    // an accepted one ends with checking exactly as requested
    ensures r.error.None? ==> r.state.checking == enabled
    ensures r.error.None? && url.Some? ==>
              && nickname.Some?
              && r.state.defaultResponderOn
              && r.state.responder == Some(Responder(url.value, nickname.value))
    ensures url.None? ==>
              && r.error.None?
              && !r.state.defaultResponderOn
              && r.state.responder == s.responder
    // the missing-nickname check happens before any lookup
    ensures r.error == Some(MissingNickname) <==> url.Some? && nickname.None?
    ensures r.error == Some(MissingNickname) ==> r.calls == [DisableChecking]
    // an unresolvable nickname is refused after the lookups, before the setter
    ensures r.error == Some(CertNotFound) <==>
              url.Some? && nickname.Some? && !Resolvable(store, nickname.value)
    ensures r.error == Some(CertNotFound) ==> r.calls == [DisableChecking] + Lookups(store, nickname.value)
  {
    var s1 := s.(checking := false);
    var c1 := [DisableChecking];
    if url.Some? then
      if nickname.None? then
        OcspOutcome(s1, c1, Some(MissingNickname))
      else
        var nick := nickname.value;
        var c2 := c1 + Lookups(store, nick);
        if !Resolvable(store, nick) then
          OcspOutcome(s1, c2, Some(CertNotFound))
        else
          var c3 := c2 + [SetDefaultResponder(url.value, nick)];
          if !setOk then
            OcspOutcome(s1, c3, Some(ResponderSetFailed))
          else
            var s2 := s1.(responder := Some(Responder(url.value, nick)), defaultResponderOn := true);
            Finish(s2, enabled, c3 + [EnableDefaultResponder])
    else
      Finish(s1.(defaultResponderOn := false), enabled, c1 + [DisableDefaultResponder])
  }

  /** The token lookup is a fallback: it is made exactly when a URL and a
      nickname are given and the database does not hold the nickname. */
  lemma TokenLookupIsFallback(s: OcspState, enabled: bool, url: JString, nickname: JString,
                              store: CertStore, setOk: bool, n: string)
    ensures FindCertOnToken(n) in Configure(s, enabled, url, nickname, store, setOk).calls
            <==> url.Some? && nickname == Some(n) && n !in store.certDb
  {
  }

  /** Reapplying an accepted configuration with the same outcomes of the
      native calls changes nothing further. */
  lemma ReapplyIsIdempotent(s: OcspState, enabled: bool, url: JString, nickname: JString,
                            store: CertStore, setOk: bool)
    requires Configure(s, enabled, url, nickname, store, setOk).error.None?
    ensures var once := Configure(s, enabled, url, nickname, store, setOk).state;
            Configure(once, enabled, url, nickname, store, setOk).state == once
  {
  }

  /** The disabled, responder-less configuration always succeeds and leaves
      both checking and the default responder off, whatever the prior
      state; only the recorded responder identity is kept. */
  lemma DisabledConfigurationResets(s: OcspState, store: CertStore, setOk: bool)
    ensures var r := Configure(s, false, None, None, store, setOk);
            && r.error.None?
            && r.state == OcspState(false, false, s.responder)
  {
  }
}

=== FILE: password.dfy ===
/** The password-callback bridge: registration of the process-wide
    default callback (`JSS_setPasswordCallback`) and the password hook the
    PKCS #11 layer calls on token login (`getPWFromCallback`). The host
    runtime (JNI lookups, the callback's behaviour, allocation) is an
    oracle input; the calls made on the callback and on the password
    object are recorded in order. */
module Password {
  import opened Base

  type Byte = bv8

  /** An opaque reference to a Java `PasswordCallback` object. */
  datatype CallbackRef = CallbackRef(handle: nat)

  /** The registered default callback and the JNI global references the
      bridge holds on callback objects. */
  datatype CallbackRegistry = CallbackRegistry(global: Option<CallbackRef>, globalRefs: multiset<CallbackRef>)

  /** The bridge holds exactly one global reference, on the registered
      default callback, or none when no default is registered. */
  predicate Consistent(reg: CallbackRegistry) {
    reg.globalRefs == (if reg.global.Some? then multiset{reg.global.value} else multiset{})
  }

  /** The registry after a registration, the reference it released, and
      whether creating the new global reference ran out of memory. */
  datatype Registration = Registration(registry: CallbackRegistry, released: Option<CallbackRef>, outOfMemory: bool)

  /** JSS_setPasswordCallback: release the previous default, then register
      `callback` unless it is null. `newRefOk` is whether the JNI global
      reference could be created. */
  function SetPasswordCallback(reg: CallbackRegistry, callback: Option<CallbackRef>, newRefOk: bool): (r: Registration)
    ensures r.released == reg.global
    ensures callback.None? ==> r.registry.global.None? && !r.outOfMemory
    ensures callback.Some? ==> (r.registry.global == callback <==> newRefOk)
    ensures r.outOfMemory <==> callback.Some? && !newRefOk
    ensures r.outOfMemory ==> r.registry.global.None?
    ensures Consistent(reg) ==> Consistent(r.registry)
  {
    var kept := if reg.global.Some? then reg.globalRefs - multiset{reg.global.value} else reg.globalRefs;
    if callback.None? then
      Registration(CallbackRegistry(None, kept), reg.global, false)
    else if !newRefOk then
      Registration(CallbackRegistry(None, kept), reg.global, true)
    else
      Registration(CallbackRegistry(callback, kept + multiset{callback.value}), reg.global, false)
  }

  /** The token being logged into; its display name goes into the
      callback-info object handed to the callback. */
  datatype Slot = Slot(tokenName: string)

  /** The two accessor methods of a password callback. */
  datatype PwMethod = GetPasswordFirst | GetPasswordAgain

  /** What the invoked callback method does: throw, return null (give up),
      or return a password object whose byte copy is `bytes`. */
  datatype Reply = Threw | GaveUp | Supplied(bytes: seq<Byte>)

  /** Outcomes of the host-runtime steps of one call.
      `attached`: AttachCurrentThread succeeded;
      `infoBuilt`: the TokenCallbackInfo object was created;
      `methodFound`: the callback accessor method was found;
      `passwordMethodsFound`: getByteCopy and clear were found;
      `copyThrew`: getByteCopy or clear raised an exception;
      `dupOk`: duplicating the bytes into native memory succeeded. */
  datatype Host = Host(attached: bool, infoBuilt: bool, methodFound: bool, reply: Reply,
                       passwordMethodsFound: bool, copyThrew: bool, dupOk: bool)

  /** Calls the bridge makes on Java objects and on the extraction buffer. */
  datatype HostCall =
    | Invoke(callback: CallbackRef, accessor: PwMethod, tokenName: string)
    | GetByteCopy
    | Clear
    | WipeBuffer

  /** The password handed back to PKCS #11 (`None` is a NULL return), and
      the calls made to get it. */
  datatype PwOutcome = PwOutcome(password: Option<seq<Byte>>, calls: seq<HostCall>)

  /** The per-call override wins over the process-wide default. */
  function Resolve(override: Option<CallbackRef>, global: Option<CallbackRef>): Option<CallbackRef> {
    if override.Some? then override else global
  }

  function MethodFor(retry: bool): PwMethod {
    if retry then GetPasswordAgain else GetPasswordFirst
  }

  /** The bytes `PL_strdup` copies from a NUL-terminated buffer: everything
      before the first zero byte. */
  function CString(b: seq<Byte>): (r: seq<Byte>)
    ensures |r| <= |b| && r == b[..|r|]
    ensures 0 !in r
    ensures |r| < |b| ==> b[|r|] == 0
  {
    if b == [] || b[0] == 0 then []
    else [b[0]] + CString(b[1..])
  }

  /** A buffer holding a password and its terminating zero yields exactly
      that password. */
  lemma {:induction false} CStringOfTerminated(s: seq<Byte>, rest: seq<Byte>)
    requires 0 !in s
    ensures CString(s + [0] + rest) == s
  {
    if s == [] {
      assert s + [0] + rest == [0] + rest;
    } else {
      var b := s + [0] + rest;
      assert b[0] == s[0] && s[0] != 0;
      assert b[1..] == s[1..] + [0] + rest;
      CStringOfTerminated(s[1..], rest);
      assert [s[0]] + s[1..] == s;
    }
  }

  /** The steps after the current thread is attached to the JVM: build the
      callback info, invoke the selected method, copy the bytes out and
      clear the password object, then duplicate and wipe the copy. */
  function AfterAttach(cb: CallbackRef, slot: Slot, retry: bool, h: Host): (r: PwOutcome)
  {
    if !h.infoBuilt || !h.methodFound then PwOutcome(None, [])
    else
      var c1 := [Invoke(cb, MethodFor(retry), slot.tokenName)];
      match h.reply
      case Threw => PwOutcome(None, c1)
      case GaveUp => PwOutcome(None, c1)
      case Supplied(bytes) =>
        if !h.passwordMethodsFound then PwOutcome(None, c1)
        else
          // the object is cleared right after the copy, whatever the copy did
          var c2 := c1 + [GetByteCopy, Clear];
          if h.copyThrew then PwOutcome(None, c2)
          else
            // the copy is wiped whether or not duplicating it succeeded
            PwOutcome(if h.dupOk then Some(CString(bytes)) else None, c2 + [WipeBuffer])
  }

  /** The host-runtime outcomes under which a password is obtained. */
  predicate Obtains(h: Host) {
    h.attached && h.infoBuilt && h.methodFound && h.reply.Supplied?
    && h.passwordMethodsFound && !h.copyThrew && h.dupOk
  }

  /** getPWFromCallback with the host runtime's outcomes as input. Every
      failure collapses to a NULL password. */
  function GetPassword(global: Option<CallbackRef>, override: Option<CallbackRef>,
                       slot: Option<Slot>, retry: bool, h: Host): (r: PwOutcome)
    // without a slot or a resolvable callback, nothing is invoked
    ensures slot.None? || (override.None? && global.None?) ==> r == PwOutcome(None, [])
    // the only callback invoked is the override, else the default, once,
    // through the method `retry` selects, for the slot's token
    ensures r.calls != [] ==>
              && slot.Some?
              && r.calls[0] == Invoke(if override.Some? then override.value else global.value,
                                      if retry then GetPasswordAgain else GetPasswordFirst,
                                      slot.value.tokenName)
              && forall i :: 0 < i < |r.calls| ==> !r.calls[i].Invoke?
    // a password is returned exactly when every step succeeds
    ensures r.password.Some? <==> slot.Some? && (override.Some? || global.Some?) && Obtains(h)
    ensures r.password.Some? ==> r.password.value == CString(h.reply.bytes)
    // a null or thrown reply gives up
    ensures !h.reply.Supplied? ==> r.password.None?
    // the password object is cleared right after its bytes are copied
    ensures forall i :: 0 <= i < |r.calls| && r.calls[i] == GetByteCopy ==>
              i + 1 < |r.calls| && r.calls[i + 1] == Clear
    // once the bytes are out, the extraction buffer is wiped, even if the
    // duplicate could not be made
    ensures GetByteCopy in r.calls && !h.copyThrew ==> r.calls[|r.calls| - 1] == WipeBuffer
    ensures r.password.Some? ==> |r.calls| == 4 && r.calls[1..] == [GetByteCopy, Clear, WipeBuffer]
    // with a slot, a callback, an attached thread and the callback's method
    // found, that callback is invoked through the method `retry` selects,
    // whatever it then replies
    ensures slot.Some? && Resolve(override, global).Some? && h.attached && h.infoBuilt && h.methodFound ==>
              && r.calls != []
              && r.calls[0] == Invoke(Resolve(override, global).value, MethodFor(retry), slot.value.tokenName)
    // once a reply is in hand, its bytes are copied and the object cleared
    // whether or not the copy threw; the copy is wiped whenever it was made,
    // so also when duplicating it fails
    ensures slot.Some? && Resolve(override, global).Some? && h.attached && h.infoBuilt && h.methodFound
            && h.reply.Supplied? && h.passwordMethodsFound ==>
              && |r.calls| >= 3 && r.calls[1..3] == [GetByteCopy, Clear]
              && (!h.copyThrew ==> r.calls[1..] == [GetByteCopy, Clear, WipeBuffer])
  {
    if slot.None? then PwOutcome(None, [])
    else match Resolve(override, global)
      case None => PwOutcome(None, [])
      case Some(cb) =>
        if !h.attached then PwOutcome(None, [])
        else AfterAttach(cb, slot.value, retry, h)
  }

  /** Registering A and then B as the default: A's reference is released,
      B is the only callback held, and a login without an override invokes
      B. */
  lemma LaterRegistrationWins(reg: CallbackRegistry, a: CallbackRef, b: CallbackRef,
                              slot: Slot, retry: bool, h: Host)
    requires Consistent(reg)
    ensures var second := SetPasswordCallback(SetPasswordCallback(reg, Some(a), true).registry, Some(b), true);
            var p := GetPassword(second.registry.global, None, Some(slot), retry, h);
            && second.released == Some(a)
            && second.registry.globalRefs == multiset{b}
            && (p.calls != [] ==> p.calls[0].callback == b)
            && (h.attached && h.infoBuilt && h.methodFound ==>
                  p.calls != [] && p.calls[0] == Invoke(b, MethodFor(retry), slot.tokenName))
  {
  }

  // ---------------------------------------------------------------------
  // The code as written: when AttachCurrentThread fails, the JNIEnv
  // pointer is never set, yet the cleanup at `finish` reads the pending
  // exception through it (CryptoManager.c:617-620 and 727-750).
  // ---------------------------------------------------------------------

  /** How a call of the hook as written ends: it returns, or it reads the
      exception state through a JNIEnv pointer that was never set. */
  datatype Exit = Returned(outcome: PwOutcome) | UnsetEnvDereferenced

  function GetPasswordAsWritten(global: Option<CallbackRef>, override: Option<CallbackRef>,
                                slot: Option<Slot>, retry: bool, h: Host): (r: Exit)
    ensures r.UnsetEnvDereferenced? <==> slot.Some? && Resolve(override, global).Some? && !h.attached
  {
    if slot.None? then Returned(PwOutcome(None, []))
    else match Resolve(override, global)
      case None => Returned(PwOutcome(None, []))
      case Some(cb) =>
        if !h.attached then UnsetEnvDereferenced
        else Returned(AfterAttach(cb, slot.value, retry, h))
  }

  /** A concrete login that reaches the unset pointer: a default callback
      is registered and attaching the thread fails. */
  lemma AsWrittenDereferencesUnsetEnv()
    ensures GetPasswordAsWritten(Some(CallbackRef(1)), None, Some(Slot("Internal Key Storage Token")), false,
                                 Host(false, true, true, GaveUp, true, false, true)).UnsetEnvDereferenced?
  {
  }

  /** Apart from that path, the code as written and the corrected hook
      agree; the corrected hook returns NULL when attaching fails. */
  lemma CorrectedHookCollapsesAttachFailure(global: Option<CallbackRef>, override: Option<CallbackRef>,
                                            slot: Option<Slot>, retry: bool, h: Host)
    ensures h.attached ==> GetPasswordAsWritten(global, override, slot, retry, h)
                           == Returned(GetPassword(global, override, slot, retry, h))
    ensures !h.attached ==> GetPassword(global, override, slot, retry, h) == PwOutcome(None, [])
  {
  }
}
